=== FILE: README.md ===
# AllinOneBot bots as Dafny models

This project models the pure decisions inside three Python modules of a
Telegram media-bot collection. The Telegram calls, subprocesses and file
operations around them stay outside the model.

- **utils.py** parses the option flags `-m` (metadata title), `-i` (input
  order) and `-n` (new file name) from a token list. It then assembles an
  ffmpeg command line from them.
- **bot.py**, the merge bot, keeps each user's uploaded paths and "batch"
  message ids. It answers `/merge -i N` by concatenating the first N uploads
  with ffmpeg's concat demuxer. Its clean-up deletes the user's uploads and
  forgets the user's state only when every listed file is still on disk;
  see below.
- **main.py**, the shell bot, checks every command against a set of allowed
  users. It takes the command's argument from the text after the first word.
  `/upload` sends a video file as a video and a directory as a zip of the
  files under it. Any other file also goes out as a zip, but that zip is
  empty: `zip_directory` walks the path with `os.walk`, which yields nothing
  for a regular file (main.py:20-27, 75). `/clean` removes a file or an
  empty directory (`os.rmdir`; a non-empty one fails with an error reply).
  `/shell` sends command output as a message or, above 4096 characters, as
  a document. `/download` saves a replied-to document.

Layout, one module per file:

- `wrappers.dfy` (`Wrappers`): `Option` and `Result`.
- `text.dfy` (`Text`): the Python string built-ins the bots use.
  - `str.split()` and `str.split(maxsplit=1)`, with `str.isspace` as the
    separator set;
  - `int()` on a decimal token and `str()` of an integer;
  - `str.lower()` and `endswith`.
- `utils.dfy` (`Utils`): `parse_command` and `construct_ffmpeg_command`.
- `merge_bot.dfy` (`MergeBot`): the state a user's uploads build up, and
  every branch of `/merge`, as state-transition functions over a map
  `UserId -> UserState(files, batches)` and the set of downloaded files
  still on disk.
- `shell_bot.dfy` (`ShellBot`): the authorisation gate, argument extraction,
  the message-or-document threshold, zip naming, and the dispatch of each
  handler.

External inputs become parameters:

- `os.path.abspath` (bot.py) is a function parameter.
- `Env` bundles `os.path.join`, the `isfile`/`isdir` test (as
  `Kind = File | Dir | Missing`) and the result of `subprocess.run`.
- The temporary list file's name is a parameter.
- The replied-to message's id and document are parameters.

Two state decisions in bot.py:

- `user_files` and `user_batches` are always created and reset together,
  so they are one map entry here.
- Every `/merge` answer except the usage one comes from inside the `try`,
  so the `finally` clause (bot.py:127-136) runs after it. The model follows
  that clause step by step, with the disk as a set of paths:
  - when the user has no entry, `user_files[user_id]` raises KeyError
    before anything is removed;
  - otherwise the listed files are removed in order, and the first one
    already gone raises FileNotFoundError;
  - on a refusal, `input_txt_path` was never assigned, so the clause
    raises before the two lists are cleared;
  - on a merge, the lists are cleared only when every listed file was
    removed.

This clean-up is evidently not what the authors meant, and the model keeps
it as written. A refusal inside the `try` (a bad number, a reply that is
not a batch, too few files) deletes the user's files but keeps the lists.
From then on every `/merge` by that user stops at the first missing file,
so the lists are never cleared again. A path listed twice has the same
effect. For example: upload `p1` in reply to batch `b`, send `/merge -i 2`
(too few files), upload `p2`, send `/merge -i 2`. The second request
goes ahead to run ffmpeg (which cannot open the deleted `p1`), and the
user keeps `[p1, p2]` and `[b]` for good.
`MergeBot.RefusalRemovesListedFiles` and `MergeBot.StrandedListPersists`
state this.

## Model

| member | source | states |
|---|---|---|
| Text.Split | bot.py:54 | `message.text.split()` returns only non-empty, whitespace-free words; with `Text.InterleaveOfSplit` and `Text.SplitOfInterleave` they are exactly the maximal non-whitespace runs, in order |
| Text.InterleaveOfSplit | bot.py:54 | every text is its split words interleaved with whitespace runs: leading and trailing runs may be empty, runs between words are not. Splitting drops only whitespace |
| Text.SplitOfInterleave | bot.py:54 | conversely, any words joined by any such whitespace runs split back into exactly those words |
| Text.SplitJoinWords | bot.py:54 | splitting recovers any sequence of words from their space-joined text: the split tokens are the text's words, in order |
| Text.SplitOnce | main.py:51 | `split(maxsplit=1)` has a second part exactly when the text has at least two words; that part is a suffix of the text starting at a non-space character, and its words are all the words after the first |
| Text.SplitOnceWordAndRest | main.py:51 | a command word, one space and a rest that starts with a non-space character split once into exactly that word and that rest, trailing text included |
| Text.ParseInt | bot.py:60 | `int(token)` succeeds exactly when, after an optional `+` or `-`, the token is digit groups: digits where a single underscore may separate two digits. So `_1`, `1__2`, `1_` and `+_1` are rejected. A negative result has a leading `-` |
| Text.ParseIntAccepts | bot.py:60 | conversely, `int` accepts every optional sign followed by digit groups (single underscores between digits, leading zeros allowed, as in `03`, `+5`, `1_0`). The value is that of the digits without underscores, negated after `-` |
| Text.ParseShowInt | bot.py:60 | `int(str(i)) == i`: the number N of a `/merge -i N` written in decimal is read back exactly |
| Text.ShowIntInjective | bot.py:84 | different integers render differently, so the rendering determines the integer |
| Utils.IndexOf | utils.py:16 | `list.index`: absent exactly when the token does not occur; otherwise the position of its first occurrence |
| Utils.FlagValue | utils.py:15-22 | an absent flag contributes nothing; otherwise the token after its first occurrence, or an error when the flag is the last token |
| Utils.ParseCommand | utils.py:5-24 | parsing fails exactly when the last token is a flag seen nowhere earlier, and the error names that flag. Otherwise each key is its default when its flag is absent, and the token after the flag's first occurrence when present |
| Utils.ParseWithoutFlags | utils.py:8-24 | with none of `-m`, `-i`, `-n` present the result is the defaults: title "Default Title", no input order, no new file name |
| Utils.AppendFlagOnlySetsItsKey | utils.py:14-22 | each flag affects only its own key: appending `flag v` sets just that key when the flag is new and changes nothing when it already occurred |
| Utils.ConstructFfmpegCommand | utils.py:26-35 | the command starts with `ffmpeg -i <video>` and ends with ` -metadata title='<title>' <output>`, with the title verbatim; between them is ` -map <order>` when the input order is truthy, and nothing otherwise |
| Utils.MapClauseIffTruthy | utils.py:30-31 | a `-map` clause is present if and only if the input order is neither None nor empty |
| Utils.CommandIgnoresNewFilename | utils.py:26-35 | the new file name never affects the command line |
| Utils.ParsedOrderReachesCommand | utils.py:18-31 | end to end: a non-empty token after the first `-i` of a parsable command appears as the command's `-map` clause |
| MergeBot.Receive | bot.py:30-47 | an upload creates the user's state if needed, appends exactly one path, and reports the new list length as the total. The batch list keeps its old entries as a prefix and gains the replied-to document's id only when absent, so it stays duplicate-free. Other users are untouched |
| MergeBot.ReceiptText | bot.py:47 | the acknowledgement after an upload carries the total in decimal between its fixed head and tail, and that number reads back as the total |
| MergeBot.ReceiveFiles | bot.py:32-38 | an upload adds its path to the uploader's file list and to no one else's |
| MergeBot.UploadsAppend | bot.py:32-38 | across any run of uploads, a user's file list is the old list followed by that user's uploads in the order the handlers record them |
| MergeBot.StepPreservesWellFormed | bot.py:41-44 | uploads and merges keep every user's batch list free of duplicates |
| MergeBot.RunPreservesWellFormed | bot.py:41-44 | batch lists stay duplicate-free across any sequence of uploads and merge requests |
| MergeBot.Merge | bot.py:54-136 | on the words of `message.text.split()`, each refusal holds exactly when its condition does: usage (fewer than 3 words or word 2 not `-i`), invalid number, no batch state, reply not a batch (no id, id 0, or unknown id), or fewer files than N. A refusal keeps the lists. A merge selects the first min(N, files) uploads (exactly N when N ≥ 1), lists them in order, and writes `merged_<user>.mkv` with the fixed concat argv. It resets the user's lists exactly when every listed file is on disk once. Except after the usage refusal or for a user with no state, the clean-up removes exactly the listed files before the first missing or repeated one, and nothing else |
| MergeBot.RemoveFiles | bot.py:128-130 | the clean-up loop runs to its end exactly when the list has no repeats and every listed file is on disk. It removes exactly the files of the longest such prefix of the list (`RemovedCount`), in list order, and leaves every other file on disk |
| MergeBot.RefusalRemovesListedFiles | bot.py:59-136 | a refusal inside the `try` for a user whose files are all on disk keeps the lists but removes every listed file |
| MergeBot.StrandedListPersists | bot.py:127-136 | once a listed file is gone from disk, no later upload or merge request clears that user's list, which only grows, until the file is downloaded again |
| MergeBot.SelectIsPrefix | bot.py:71 | the comprehension keeps exactly the first min(N, \|files\|) uploads in order, and none when N ≤ 0 |
| MergeBot.SelectionIgnoresBatch | bot.py:65-71 | any two valid batch replies give the same merge: the batch id only gates the request and does not choose files |
| MergeBot.MergeProceedsIffEnoughFiles | bot.py:71-74 | a well-formed request replying to a batch merges if and only if N is at most the number of uploads |
| MergeBot.OutcomeText | bot.py:56-124 | the invalid-number reply ends with the usage text, and the too-few-files reply carries N in decimal, which reads back as N |
| MergeBot.ConcatListAppend | bot.py:79-82 | the list file of a concatenation of inputs is the concatenation of their list files, so entries follow the selection order |
| MergeBot.ConcatListLines | bot.py:81-82 | when no absolute path contains a line break, the list file has exactly one line per selected file |
| MergeBot.OutputNameInjective | bot.py:84 | the output name `merged_<user_id>.mkv` determines the user, so two users never share an output file |
| MergeBot.MergeArgv | bot.py:87-90 | the argv is `ffmpeg -y -f concat -safe 0 -i <list file> -c copy <output>`, 11 entries, with the list file right after `-i` and the output last |
| ShellBot.AuthorizationGate | main.py:16-17 | for all four handlers (main.py:46-48, 61-63, 91-93, 116-118), a user outside the allowed set gets only "You are not authorized to use this command.", and an allowed user never gets it |
| ShellBot.ArgumentRequired | main.py:50-56 | an allowed `/shell`, `/upload` or `/clean` without an argument only replies with the IndexError text; with an argument it never does |
| ShellBot.ArgumentIsRestOfText | main.py:51 | `split(maxsplit=1)[1]` exists exactly when the text has two words or more; it is the tail of the text from the second word's first character, and its words are all the words after the command |
| ShellBot.UploadNameIsWholeRest | main.py:66 | `/upload <name>` acts on the whole rest of the text, spaces included |
| ShellBot.SendMessageOrFile | main.py:30-37 | text is sent as a document named output.txt exactly when it is longer than 4096 characters, otherwise as a message, and the content is unchanged either way |
| ShellBot.MessageLimitBoundary | main.py:31-37 | exactly 4096 characters still goes out as a message; 4097 goes out as a document |
| ShellBot.ShellOutput | main.py:52-54 | the output sent is "Output:\n" followed by stdout, or by stderr when stdout is empty; it goes out as output.txt exactly when that text is longer than 4096 characters |
| ShellBot.ZipName | main.py:21 | the archive name is the path with `.zip` appended: the path is a prefix, `.zip` the suffix, four characters longer, so never the path itself |
| ShellBot.ZipNameInjective | main.py:21 | the archive name determines the zipped path (path + ".zip") |
| ShellBot.VideoNameIffExtension | main.py:70 | `lower().endswith(('.mkv', '.mp4'))` holds exactly when the path ends in a dot, `m`, and `kv` or `p4`, letters in either case (the Kelvin sign lowers to `k`) |
| ShellBot.UploadItem | main.py:66-84 | a file with a video extension is sent as a video; any other file and any directory is sent as `<path>.zip`. The archive holds the files under a directory, and no entries for a plain file; a missing item gets "Invalid file or directory name." |
| ShellBot.CleanItem | main.py:121-131 | a file is removed and a directory rmdir'ed (which succeeds only when it is empty), each with its confirmation naming the item; anything else gets "Invalid file or directory name." |
| ShellBot.CleanAndUploadRefuseSameNames | main.py:66-131 | `/clean` answers "Invalid file or directory name." exactly when the user is allowed, an argument is given, and the named path is neither a file nor a directory; `/upload` refuses exactly the same texts |
| ShellBot.DownloadFile | main.py:95-109 | without a replied-to document the reply is "Please reply to a document to download."; without an argument it is the IndexError text; otherwise the document is always fetched to join(join(base, name), file name), creating the directory when it is not one |

## Left out

- Telegram I/O is not modelled: `reply_text`, `download`, `send_document`, `send_video`, `reply_document`, the `app.run()` loops and the routing of messages to handlers by pyrogram filters. A handler's command kind and its replied-to message are inputs.
- The `/start` and `/help` replies of bot.py are not modelled: each just sends a fixed text.
- Process spawning and concurrency are not modelled: `subprocess.run(..., shell=True)`, `Popen`, the thread-pool output reader, `run_coroutine_threadsafe` and `update_progress_message`. The shell's output is an input (`Env.run`). The merge stops at the job it would run.
- Overlapping handlers in bot.py are not modelled: each handler is one uninterrupted step. Pyrogram runs several update handlers at once, and they can interleave at their `await` points (bot.py:37, 47, 56-73, 115, 121). So the file list follows the order in which downloads finish, not the order the messages arrived. A `/merge` sent during a user's first download finds the empty entry of bot.py:32-34. An upload that completes while a refusal awaits its reply lands in a list that the `finally` clause then deletes.
- The progress regex of bot.py:102 is not modelled; its output is only displayed.
- Filesystem effects outside bot.py's clean-up are not modelled: the `zipfile`/`os.walk` archiving, main.py's `os.remove` and `os.rmdir`, `os.makedirs`, writing `output.txt`, temporary-file creation and `ensure_directory` (utils.py:37-40). Handlers return the action instead. `os.path.abspath` and `os.path.join` are uninterpreted parameters. `BASE_DIR` keeps its placeholder value.
- Exceptions other than the missing-argument IndexError are not modelled in main.py. These are I/O failures, `os.rmdir` on a non-empty directory, `makedirs` over an existing file, and a document without a file name; each would reply "Error: " plus the exception text.
- In bot.py, the exceptions the `finally` clause raises (KeyError, FileNotFoundError, UnboundLocalError) are not replies; the model keeps only their effect on the dictionaries and the disk.
- MergeBot.Merge: the disk holds only the downloaded uploads. The temporary list file and the merged output are not tracked; a merge whose clean-up finishes removes both (bot.py:131-134). Two failures are not modelled. If something raises before bot.py:84 binds `output_file`, the `finally` clause stops at bot.py:131 or bot.py:133 and keeps the lists, while the model resets them. A merge whose output-reading loop never ends never reaches the clean-up.
- `zip_directory` of a plain file: the empty archive is modelled (`NoEntries`), the archive's bytes are not.
- Shell-injection safety of the string command in utils.py is not modelled. The code does no escaping, so there is nothing to prove; the title is inserted verbatim.
- Text.ParseInt: accepts ASCII digits only. Python's `int` also accepts other Unicode decimal digits and surrounding whitespace; a token from `split()` never has the whitespace.
- Text.LowerChar: maps ASCII capitals and the Kelvin sign and leaves every other character unchanged, one character for one. Python's `lower()` also lowers other letters, which only ever gives non-ASCII results, and it turns U+0130 into two characters, `i` and U+0307. Neither of those is a character the `.mkv`/`.mp4` test compares. If U+0130 is among a path's last four characters, both tests reject the path; if it is earlier, it does not change the last four characters. So the video test is exact.
- Text.ParseShowInt: no digit limit. Python 3.11 and later refuse `int()` and `str()` on more than 4300 digits by default (`sys.set_int_max_str_digits`); the model has no such bound.

=== FILE: merge_bot.dfy ===
/** bot.py: the merge bot's decisions, lifted out of its message handlers.

    Each user has a list of uploaded file paths and a list of "batch" ids
    (ids of replied-to document messages). Uploading appends a path; `/merge
    -i N`, sent as a reply to a batch message, concatenates the user's first
    N uploads with ffmpeg; its clean-up then deletes the files and forgets
    both lists. The download, the temporary list file's name,
    `os.path.abspath` and the ffmpeg run itself are outside the model: the
    first three are parameters, the last is the job description the handler
    would hand to the process.

    The `finally` clause of `/merge` removes the user's files from disk
    before it clears the lists, and it stops at the first error. So the disk
    is part of the state: the set of downloaded paths still present. */
module MergeBot {
  import opened Wrappers
  import Text

  type UserId = int
  type MessageId = int
  type Path = string

  /** One user's entries of `user_files` and `user_batches`; the handlers
      always create and reset the two together, so they share one key. */
  datatype UserState = UserState(files: seq<Path>, batches: seq<MessageId>)

  type BotState = map<UserId, UserState>

  const Empty: UserState := UserState([], [])

  function Files(s: BotState, user: UserId): seq<Path> {
    if user in s then s[user].files else []
  }

  function Batches(s: BotState, user: UserId): seq<MessageId> {
    if user in s then s[user].batches else []
  }

  predicate NoDuplicates<T(==)>(xs: seq<T>) {
    forall i, j :: 0 <= i < j < |xs| ==> xs[i] != xs[j]
  }

  /** The downloaded files still present on disk. */
  type Disk = set<Path>

  /** No user's batch list names a message twice. */
  predicate WellFormed(s: BotState) {
    forall u :: u in s ==> NoDuplicates(s[u].batches)
  }

  // ---------------------------------------------------------------------
  // receive_files

  /** The message an upload replies to, if any: its id and whether it
      carries a document. */
  datatype Replied = Replied(id: MessageId, hasDocument: bool)

  datatype Receipt = Receipt(state: BotState, total: nat)

  /** A document upload: record the downloaded path and, when the upload
      replies to a document, that message's id as a batch (once). */
  function Receive(s: BotState, user: UserId, path: Path, replyTo: Option<Replied>): (r: Receipt)
    ensures r.state.Keys == s.Keys + {user}
    ensures forall u :: u in s && u != user ==> r.state[u] == s[u]
    ensures r.state[user].files == Files(s, user) + [path]
    ensures r.total == |r.state[user].files|
    ensures Batches(s, user) <= r.state[user].batches
    ensures forall b :: b in r.state[user].batches <==>
              b in Batches(s, user) || (replyTo.Some? && replyTo.value.hasDocument && b == replyTo.value.id)
    ensures NoDuplicates(Batches(s, user)) ==> NoDuplicates(r.state[user].batches)
  {
    var prior := if user in s then s[user] else Empty;
    var files := prior.files + [path];
    var batches :=
      if replyTo.Some? && replyTo.value.hasDocument && replyTo.value.id !in prior.batches
      then prior.batches + [replyTo.value.id]
      else prior.batches;
    Receipt(s[user := UserState(files, batches)], |files|)
  }

  const ReceiptHead: string := "File received! Total files: "
  const ReceiptTail: string := ". Use /merge -i N to combine them."

  /** The acknowledgement sent after an upload: the number between its fixed
      head and tail reads back as the total. */
  function ReceiptText(total: nat): (t: string)
    ensures ReceiptHead <= t && Text.EndsWith(t, ReceiptTail)
    ensures |ReceiptHead| + |ReceiptTail| <= |t|
    ensures Text.ParseInt(t[|ReceiptHead|..|t| - |ReceiptTail|]) == Some(total as int)
  {
    var t := ReceiptHead + Text.ShowInt(total) + ReceiptTail;
    assert t[|ReceiptHead|..|t| - |ReceiptTail|] == Text.ShowInt(total);
    assert t[|t| - |ReceiptTail|..] == ReceiptTail;
    Text.ParseShowInt(total);
    t
  }

  // ---------------------------------------------------------------------
  // merge_files_command

  datatype MergeJob = MergeJob(inputs: seq<Path>, listText: string, output: Path, argv: seq<string>)

  datatype MergeOutcome =
    | Usage
    | InvalidNumber
    | NoBatchInfo
    | NotBatchReply
    | TooFewFiles(wanted: int)
    | Merged(job: MergeJob)

  datatype MergeResult = MergeResult(outcome: MergeOutcome, state: BotState, disk: Disk)

  /** The usage check on the whitespace-split command text. */
  predicate UsageOk(words: seq<string>) {
    |words| >= 3 && words[1] == "-i"
  }

  /** The files the comprehension `[f for i, f in enumerate(files) if i+1 <= n]`
      keeps, for the elements of `files` numbered from `start`. */
  function SelectFrom(files: seq<Path>, start: nat, n: int): seq<Path>
  {
    if |files| == 0 then []
    else (if start + 1 <= n then [files[0]] else []) + SelectFrom(files[1..], start + 1, n)
  }

  function Select(files: seq<Path>, n: int): seq<Path> {
    SelectFrom(files, 0, n)
  }

  /** How many files a request for `n` can get out of `count`. */
  function Clamp(n: int, count: nat): (k: nat)
    ensures k <= count
  {
    if n <= 0 then 0 else if n < count then n else count
  }

  lemma {:induction false} SelectFromIsPrefix(files: seq<Path>, start: nat, n: int)
    ensures SelectFrom(files, start, n) == files[..Clamp(n - start, |files|)]
    decreases |files|
  {
    if |files| > 0 {
      SelectFromIsPrefix(files[1..], start + 1, n);
      var k := Clamp(n - start - 1, |files| - 1);
      if start + 1 <= n {
        assert Clamp(n - start, |files|) == k + 1;
        assert files[..k + 1] == [files[0]] + files[1..][..k];
      } else {
        assert k == 0 && Clamp(n - start, |files|) == 0;
      }
    }
  }

  /** The selection is the first min(n, |files|) uploads, in upload order,
      and nothing when n <= 0. */
  lemma SelectIsPrefix(files: seq<Path>, n: int)
    ensures Select(files, n) == files[..Clamp(n, |files|)]
  {
    SelectFromIsPrefix(files, 0, n);
  }

  /** One line of the concat list. */
  function ListEntry(absPath: Path): string {
    "file '" + absPath + "'\n"
  }

  /** The list file ffmpeg's concat demuxer reads: one entry per input. */
  function ConcatList(inputs: seq<Path>, abs: Path -> Path): string
  {
    if |inputs| == 0 then "" else ListEntry(abs(inputs[0])) + ConcatList(inputs[1..], abs)
  }

  /** The list of a concatenation of inputs is the concatenation of the lists,
      so the entries follow the inputs in order. */
  lemma {:induction false} ConcatListAppend(a: seq<Path>, b: seq<Path>, abs: Path -> Path)
    ensures ConcatList(a + b, abs) == ConcatList(a, abs) + ConcatList(b, abs)
    decreases |a|
  {
    if |a| == 0 {
      assert a + b == b;
    } else {
      assert (a + b)[1..] == a[1..] + b;
      ConcatListAppend(a[1..], b, abs);
    }
  }

  function Count(s: string, c: char): nat {
    if |s| == 0 then 0 else (if s[0] == c then 1 else 0) + Count(s[1..], c)
  }

  lemma {:induction false} CountAppend(a: string, b: string, c: char)
    ensures Count(a + b, c) == Count(a, c) + Count(b, c)
    decreases |a|
  {
    if |a| == 0 {
      assert a + b == b;
    } else {
      assert (a + b)[1..] == a[1..] + b;
      CountAppend(a[1..], b, c);
    }
  }

  /** When no absolute path contains a line break, the list has exactly one
      line per input. */
  lemma {:induction false} ConcatListLines(inputs: seq<Path>, abs: Path -> Path)
    requires forall i :: 0 <= i < |inputs| ==> Count(abs(inputs[i]), '\n') == 0
    ensures Count(ConcatList(inputs, abs), '\n') == |inputs|
    decreases |inputs|
  {
    if |inputs| > 0 {
      var p := abs(inputs[0]);
      CountAppend("file '" + p, "'\n", '\n');
      CountAppend("file '", p, '\n');
      CountAppend(ListEntry(p), ConcatList(inputs[1..], abs), '\n');
      assert Count("file '", '\n') == 0;
      assert Count("'\n", '\n') == 1;
      ConcatListLines(inputs[1..], abs);
    }
  }

  /** The merged file's name. */
  function OutputName(user: UserId): Path {
    "merged_" + Text.ShowInt(user) + ".mkv"
  }

  /** Different users never share an output file: the name determines the user. */
  lemma OutputNameInjective(a: UserId, b: UserId)
    requires OutputName(a) == OutputName(b)
    ensures a == b
  {
    var sa := Text.ShowInt(a);
    var sb := Text.ShowInt(b);
    assert |sa| == |sb|;
    assert sa == OutputName(a)[7..7 + |sa|];
    assert sb == OutputName(b)[7..7 + |sb|];
    Text.ShowIntInjective(a, b);
  }

  /** The ffmpeg argument vector of a merge: overwrite the output, read the
      list with the concat demuxer (unsafe paths allowed), copy the streams. */
  function MergeArgv(listPath: Path, output: Path): (argv: seq<string>)
    ensures |argv| == 11
    ensures argv[..7] == ["ffmpeg", "-y", "-f", "concat", "-safe", "0", "-i"]
    ensures argv[7] == listPath
    ensures argv[8..10] == ["-c", "copy"]
    ensures argv[10] == output
  {
    ["ffmpeg", "-y", "-f", "concat", "-safe", "0", "-i", listPath, "-c", "copy", output]
  }

  /** Python truthiness of the replied-to message id. */
  predicate IsBatchReply(replyTo: Option<MessageId>, batches: seq<MessageId>) {
    replyTo.Some? && replyTo.value != 0 && replyTo.value in batches
  }

  /** Each listed path once, and each on disk: then the `finally` clause's
      `os.remove` loop runs to its end. */
  predicate Removable(files: seq<Path>, disk: Disk) {
    NoDuplicates(files) && forall i :: 0 <= i < |files| ==> files[i] in disk
  }

  datatype Removal = Removal(finished: bool, disk: Disk)

  /** How many listed files the clean-up loop removes: the longest prefix of
      the list whose files are distinct and on disk. The file right after
      it, if any, is off disk or a repeat. */
  function RemovedCount(files: seq<Path>, disk: Disk): (k: nat)
    ensures k <= |files|
    ensures Removable(files[..k], disk)
    ensures k < |files| ==> files[k] !in disk || files[k] in files[..k]
    decreases |files|
  {
    if |files| == 0 || files[0] !in disk then 0
    else
      var k := 1 + RemovedCount(files[1..], disk - {files[0]});
      assert files[..k][1..] == files[1..][..k - 1];
      RemovableCons(files[..k], disk);
      assert k < |files| ==> files[k] == files[1..][k - 1];
      k
  }

  /** `for file in user_files[user_id]: os.remove(file)`: the files go in
      list order, and the first one no longer on disk raises
      FileNotFoundError, which ends the clause there. */
  function RemoveFiles(files: seq<Path>, disk: Disk): (r: Removal)
    ensures r.finished <==> Removable(files, disk)
    ensures forall p :: p in r.disk ==> p in disk
    ensures forall p :: p in disk && p !in files ==> p in r.disk
    ensures r.finished ==> forall p :: p in files ==> p !in r.disk
    ensures r.finished <==> RemovedCount(files, disk) == |files|
    ensures forall p :: p in r.disk <==> p in disk && p !in files[..RemovedCount(files, disk)]
    decreases |files|
  {
    if |files| == 0 then Removal(true, disk)
    else if files[0] !in disk then Removal(false, disk)
    else
      var r := RemoveFiles(files[1..], disk - {files[0]});
      RemovableCons(files, disk);
      assert forall p :: p in files && p != files[0] ==> p in files[1..];
      var k := RemovedCount(files, disk);
      assert files[..k] == [files[0]] + files[1..][..k - 1];
      r
  }

  lemma RemovableCons(files: seq<Path>, disk: Disk)
    requires |files| > 0 && files[0] in disk
    ensures Removable(files, disk) <==> Removable(files[1..], disk - {files[0]})
  {
    var rest := files[1..];
    if Removable(files, disk) {
      forall i | 0 <= i < |rest| ensures rest[i] in disk - {files[0]} {
        assert rest[i] == files[i + 1];
      }
    }
    if Removable(rest, disk - {files[0]}) {
      forall i, j | 0 <= i < j < |files| ensures files[i] != files[j] {
        assert files[j] == rest[j - 1];
        if i > 0 {
          assert files[i] == rest[i - 1];
        }
      }
      forall i | 0 <= i < |files| ensures files[i] in disk {
        if i > 0 {
          assert files[i] == rest[i - 1];
        }
      }
    }
  }

  /** What `/merge -i N` answers, before the clean-up. */
  function Decide(s: BotState, user: UserId, words: seq<string>, replyTo: Option<MessageId>,
                  listPath: Path, abs: Path -> Path): MergeOutcome
  {
    if !UsageOk(words) then Usage
    else match Text.ParseInt(words[2])
      case None => InvalidNumber
      case Some(n) =>
        if user !in s then NoBatchInfo
        else if !IsBatchReply(replyTo, s[user].batches) then NotBatchReply
        else
          var selected := Select(s[user].files, n);
          if |selected| < n then TooFewFiles(n)
          else
            var output := OutputName(user);
            Merged(MergeJob(selected, ConcatList(selected, abs), output, MergeArgv(listPath, output)))
  }

  /** `/merge -i N` sent by `user`, replying to message `replyTo`; `words`
      is the command text split on whitespace (`Text.Split`). `listPath`
      stands for the temporary file's name and `abs` for `os.path.abspath`.

      Every answer but the usage one comes from inside the `try`, so the
      `finally` clause runs after it:
      - with no entry for the user, `user_files[user_id]` raises KeyError
        and nothing is removed;
      - otherwise the user's files are removed from disk in order, until
        one is missing;
      - on a refusal, `input_txt_path` was never assigned, so the clause
        raises before the lists are cleared;
      - on a merge, the lists are cleared only when the removal loop
        finished. */
  function Merge(s: BotState, disk: Disk, user: UserId, words: seq<string>, replyTo: Option<MessageId>,
                 listPath: Path, abs: Path -> Path): (r: MergeResult)
    ensures r.outcome == Usage <==> !UsageOk(words)
    ensures r.outcome == InvalidNumber <==>
              UsageOk(words) && Text.ParseInt(words[2]).None?
    ensures r.outcome == NoBatchInfo <==>
              UsageOk(words) && Text.ParseInt(words[2]).Some? && user !in s
    ensures r.outcome == NotBatchReply <==>
              UsageOk(words) && Text.ParseInt(words[2]).Some?
              && user in s && !IsBatchReply(replyTo, s[user].batches)
    ensures r.outcome.TooFewFiles? <==>
              UsageOk(words) && Text.ParseInt(words[2]).Some?
              && user in s && IsBatchReply(replyTo, s[user].batches)
              && |s[user].files| < Text.ParseInt(words[2]).value
    ensures r.outcome.TooFewFiles? ==> r.outcome.wanted == Text.ParseInt(words[2]).value
    ensures r.outcome.Merged? ==>
              && user in s
              && IsBatchReply(replyTo, s[user].batches)
              && UsageOk(words)
              && Text.ParseInt(words[2]).Some?
              && var n := Text.ParseInt(words[2]).value;
              && n <= |s[user].files|
              && r.outcome.job.inputs == s[user].files[..Clamp(n, |s[user].files|)]
              && (n >= 1 ==> |r.outcome.job.inputs| == n)
              && r.outcome.job.output == OutputName(user)
              && r.outcome.job.listText == ConcatList(r.outcome.job.inputs, abs)
              && r.outcome.job.argv == MergeArgv(listPath, OutputName(user))
    ensures r.outcome.Merged? && Removable(Files(s, user), disk) ==> r.state == s[user := Empty]
    ensures !r.outcome.Merged? || !Removable(Files(s, user), disk) ==> r.state == s
    ensures !UsageOk(words) || user !in s ==> r.disk == disk
    ensures forall p :: p in r.disk ==> p in disk
    ensures forall p :: p in disk && p !in Files(s, user) ==> p in r.disk
    ensures UsageOk(words) && Removable(Files(s, user), disk) ==> forall p :: p in Files(s, user) ==> p !in r.disk
    ensures UsageOk(words) && user in s ==>
              forall p :: p in r.disk <==> p in disk && p !in Files(s, user)[..RemovedCount(Files(s, user), disk)]
  {
    var outcome := Decide(s, user, words, replyTo, listPath, abs);
    if !UsageOk(words) || user !in s then MergeResult(outcome, s, disk)
    else
      SelectIsPrefix(s[user].files, Text.ParseInt(words[2]).GetOr(0));
      var removal := RemoveFiles(s[user].files, disk);
      MergeResult(outcome, if outcome.Merged? && removal.finished then s[user := Empty] else s, removal.disk)
  }

  const UsageText: string := "Usage: /merge -i N where N is the number of files to merge."
  const InvalidNumberText: string := "Invalid number of files specified. " + UsageText
  const NoBatchText: string := "No batch information available."
  const NotBatchText: string := "You must reply to the first file in the batch to specify which batch to merge."
  const TooFewHead: string := "You need to send at least "
  const TooFewTail: string := " files to merge them."

  /** The too-few-files reply: N in decimal between a fixed head and tail. */
  function TooFewText(n: int): (t: string)
    ensures TooFewHead <= t && Text.EndsWith(t, TooFewTail)
    ensures |TooFewHead| + |TooFewTail| <= |t|
    ensures Text.ParseInt(t[|TooFewHead|..|t| - |TooFewTail|]) == Some(n)
  {
    var t := TooFewHead + Text.ShowInt(n) + TooFewTail;
    assert t[|TooFewHead|..|t| - |TooFewTail|] == Text.ShowInt(n);
    assert t[|t| - |TooFewTail|..] == TooFewTail;
    Text.ParseShowInt(n);
    t
  }

  /** The reply each refusal sends; the too-few-files reply carries N in
      decimal, which reads back as N. */
  function OutcomeText(o: MergeOutcome): (t: string)
    requires !o.Merged?
    ensures o.InvalidNumber? ==> Text.EndsWith(t, UsageText)
    ensures o.TooFewFiles? ==> TooFewHead <= t && Text.EndsWith(t, TooFewTail)
    ensures o.TooFewFiles? ==> |TooFewHead| + |TooFewTail| <= |t|
                               && Text.ParseInt(t[|TooFewHead|..|t| - |TooFewTail|]) == Some(o.wanted)
  {
    match o
    case Usage => UsageText
    case InvalidNumber =>
      Text.EndsWithAppend("Invalid number of files specified. ", UsageText);
      InvalidNumberText
    case NoBatchInfo => NoBatchText
    case NotBatchReply => NotBatchText
    case TooFewFiles(n) => TooFewText(n)
  }

  /** Which files are merged does not depend on which batch the request
      replies to: any two batch replies select the same files. */
  lemma SelectionIgnoresBatch(s: BotState, disk: Disk, user: UserId, words: seq<string>, b1: MessageId,
                              b2: MessageId, listPath: Path, abs: Path -> Path)
    requires user in s && b1 != 0 && b2 != 0 && b1 in s[user].batches && b2 in s[user].batches
    ensures Merge(s, disk, user, words, Some(b1), listPath, abs) == Merge(s, disk, user, words, Some(b2), listPath, abs)
  {
  }

  /** A well-formed `/merge -i N` reply to a batch merges exactly when the
      user has uploaded at least N files. */
  lemma MergeProceedsIffEnoughFiles(s: BotState, disk: Disk, user: UserId, words: seq<string>,
                                    replyTo: Option<MessageId>, listPath: Path, abs: Path -> Path)
    requires UsageOk(words) && Text.ParseInt(words[2]).Some?
    requires user in s && IsBatchReply(replyTo, s[user].batches)
    ensures Merge(s, disk, user, words, replyTo, listPath, abs).outcome.Merged?
            <==> Text.ParseInt(words[2]).value <= |s[user].files|
  {
  }

  // ---------------------------------------------------------------------
  // Runs of the bot

  /** The two dictionaries and the downloaded files on disk. */
  datatype World = World(users: BotState, disk: Disk)

  datatype Event =
    | Upload(user: UserId, path: Path, replied: Option<Replied>)
    | MergeRequest(user: UserId, text: string, replyTo: Option<MessageId>, listPath: Path)

  /** One handler run: an upload downloads its file and records it; a
      merge request answers and cleans up. */
  function Step(w: World, e: Event, abs: Path -> Path): World {
    match e
    case Upload(u, p, rep) => World(Receive(w.users, u, p, rep).state, w.disk + {p})
    case MergeRequest(u, t, rep, l) =>
      var r := Merge(w.users, w.disk, u, Text.Split(t), rep, l, abs);
      World(r.state, r.disk)
  }

  function Run(w: World, events: seq<Event>, abs: Path -> Path): World
    decreases |events|
  {
    if |events| == 0 then w else Run(Step(w, events[0], abs), events[1..], abs)
  }

  lemma RunCons(w: World, events: seq<Event>, abs: Path -> Path)
    requires |events| > 0
    ensures Run(w, events, abs) == Run(Step(w, events[0], abs), events[1..], abs)
  {
  }

  /** Every handler keeps the batch lists free of duplicates. */
  lemma StepPreservesWellFormed(w: World, e: Event, abs: Path -> Path)
    requires WellFormed(w.users)
    ensures WellFormed(Step(w, e, abs).users)
  {
    match e
    case Upload(u, p, rep) =>
      var r := Receive(w.users, u, p, rep);
      assert NoDuplicates(Batches(w.users, u));
      forall v | v in r.state
        ensures NoDuplicates(r.state[v].batches)
      {
        if v != u {
          assert r.state[v] == w.users[v];
        }
      }
    case MergeRequest(u, t, rep, l) =>
  }

  lemma {:induction false} RunPreservesWellFormed(w: World, events: seq<Event>, abs: Path -> Path)
    requires WellFormed(w.users)
    ensures WellFormed(Run(w, events, abs).users)
    decreases |events|
  {
    if |events| > 0 {
      StepPreservesWellFormed(w, events[0], abs);
      RunPreservesWellFormed(Step(w, events[0], abs), events[1..], abs);
    }
  }

  lemma ReceiveFiles(s: BotState, u: UserId, p: Path, rep: Option<Replied>, user: UserId)
    ensures Files(Receive(s, u, p, rep).state, user) == Files(s, user) + (if u == user then [p] else [])
  {
    var r := Receive(s, u, p, rep);
    if u != user {
      assert user in r.state <==> user in s;
      assert Files(s, user) + [] == Files(s, user);
    }
  }

  lemma StepUploadFiles(w: World, e: Event, abs: Path -> Path, user: UserId)
    requires e.Upload?
    ensures Files(Step(w, e, abs).users, user) == Files(w.users, user) + (if e.user == user then [e.path] else [])
  {
    ReceiveFiles(w.users, e.user, e.path, e.replied, user);
  }

  /** The paths a sequence of events uploads for `user`, in order. */
  function UploadedBy(events: seq<Event>, user: UserId): seq<Path>
  {
    if |events| == 0 then []
    else (if events[0].Upload? && events[0].user == user then [events[0].path] else [])
         + UploadedBy(events[1..], user)
  }

  predicate AllUploads(events: seq<Event>) {
    forall i :: 0 <= i < |events| ==> events[i].Upload?
  }

  lemma AppendEmpty<T>(a: seq<T>)
    ensures a + [] == a
  {
  }

  lemma AppendAssoc<T>(a: seq<T>, b: seq<T>, c: seq<T>)
    ensures a + b + c == a + (b + c)
  {
  }

  /** Without merges, a user's file list is the old one followed by that
      user's uploads in the order the handlers record them. */
  lemma {:induction false} UploadsAppend(w: World, events: seq<Event>, user: UserId, abs: Path -> Path)
    requires AllUploads(events)
    ensures Files(Run(w, events, abs).users, user) == Files(w.users, user) + UploadedBy(events, user)
    decreases |events|
  {
    if |events| == 0 {
      AppendEmpty(Files(w.users, user));
    } else {
      var w' := Step(w, events[0], abs);
      var rest := events[1..];
      var added := if events[0].user == user then [events[0].path] else [];
      StepUploadFiles(w, events[0], abs, user);
      RunCons(w, events, abs);
      assert AllUploads(rest) by {
        forall i | 0 <= i < |rest| ensures rest[i].Upload? {
          assert rest[i] == events[i + 1];
        }
      }
      UploadsAppend(w', rest, user, abs);
      AppendAssoc(Files(w.users, user), added, UploadedBy(rest, user));
    }
  }

  // ---------------------------------------------------------------------
  // Stranded lists

  /** No event downloads `p` again. */
  predicate NeverUploads(events: seq<Event>, p: Path) {
    forall i :: 0 <= i < |events| && events[i].Upload? ==> events[i].path != p
  }

  /** A refused request inside the `try` (a bad number, a reply that is not
      a batch, too few files) removes every listed file from disk and keeps
      the lists. */
  lemma RefusalRemovesListedFiles(s: BotState, disk: Disk, user: UserId, words: seq<string>,
                                  replyTo: Option<MessageId>, listPath: Path, abs: Path -> Path)
    requires user in s && Removable(s[user].files, disk)
    requires UsageOk(words)
    requires !Merge(s, disk, user, words, replyTo, listPath, abs).outcome.Merged?
    ensures Merge(s, disk, user, words, replyTo, listPath, abs).state == s
    ensures forall p :: p in s[user].files ==> p !in Merge(s, disk, user, words, replyTo, listPath, abs).disk
  {
  }

  /** One step keeps a listed file that is gone from disk listed and gone,
      and the old list a prefix of the new one. */
  lemma StepKeepsStranded(w: World, e: Event, user: UserId, p: Path, abs: Path -> Path)
    requires p in Files(w.users, user) && p !in w.disk
    requires e.Upload? ==> e.path != p
    ensures Files(w.users, user) <= Files(Step(w, e, abs).users, user)
    ensures p in Files(Step(w, e, abs).users, user) && p !in Step(w, e, abs).disk
  {
    match e
    case Upload(u, q, rep) =>
      ReceiveFiles(w.users, u, q, rep, user);
    case MergeRequest(u, t, rep, l) =>
      var r := Merge(w.users, w.disk, u, Text.Split(t), rep, l, abs);
      if u == user {
        assert !Removable(Files(w.users, user), w.disk);
      }
      assert Files(r.state, user) == Files(w.users, user);
  }

  /** A user whose list names a file no longer on disk is never reset: the
      removal loop of every later `/merge` stops at that file, so the list
      only grows, until the file is downloaded again. In particular, after a
      refusal has removed the files (`RefusalRemovesListedFiles`), no merge
      clears that user's lists any more. */
  lemma {:induction false} StrandedListPersists(w: World, events: seq<Event>, user: UserId, p: Path,
                                                abs: Path -> Path)
    requires p in Files(w.users, user) && p !in w.disk
    requires NeverUploads(events, p)
    ensures Files(w.users, user) <= Files(Run(w, events, abs).users, user)
    ensures p !in Run(w, events, abs).disk
    decreases |events|
  {
    if |events| > 0 {
      var w' := Step(w, events[0], abs);
      var rest := events[1..];
      StepKeepsStranded(w, events[0], user, p, abs);
      assert NeverUploads(rest, p) by {
        forall i | 0 <= i < |rest| && rest[i].Upload? ensures rest[i].path != p {
          assert rest[i] == events[i + 1];
        }
      }
      StrandedListPersists(w', rest, user, p, abs);
      RunCons(w, events, abs);
    }
  }
}

=== FILE: shell_bot.dfy ===
/** main.py: the shell bot's routing decisions.

    Every command is gated on the allowed-users collection, takes its
    argument from the text after the first word, and is dispatched on what
    the named path is (a file, a directory, or nothing). The filesystem
    tests, `os.path.join` and the shell run are parameters (`Env`); each
    handler returns the one response it would produce, which the Telegram
    layer would then carry out. */
module ShellBot {
  import opened Wrappers
  import Text

  type UserId = int
  type Path = string

  const BaseDir: Path := "/path/to/base_directory"

  /** Telegram's message limit: longer output goes out as a document. */
  const MessageLimit: nat := 4096
  const OutputFileName: string := "output.txt"

  const NotAuthorized: string := "You are not authorized to use this command."
  const InvalidItem: string := "Invalid file or directory name."
  const NotADocument: string := "Please reply to a document to download."
  /** `f"Error: {e}"` for the IndexError of `split(maxsplit=1)[1]`. */
  const MissingArgument: string := "Error: list index out of range"

  /** What `os.path.isfile` / `os.path.isdir` say about a path. */
  datatype Kind = File | Dir | Missing

  datatype ProcessOutput = ProcessOutput(stdout: string, stderr: string)

  /** The outside world as the handlers see it. */
  datatype Env = Env(join: (Path, string) -> Path, kind: Path -> Kind, run: string -> ProcessOutput)

  /** The document a `/download` replies to. */
  datatype Document = Document(fileId: string, fileName: string)

  datatype Command = Shell | Upload | Download | Clean

  datatype Delivery = AsMessage(text: string) | AsDocument(fileName: string, content: string)

  /** What zip_directory puts in the archive: `os.walk` lists the files under
      a directory, and yields nothing at all for a regular file. */
  datatype ArchiveContents = FilesUnder(root: Path) | NoEntries

  datatype Response =
    | Reply(text: string)
    | Deliver(delivery: Delivery)
    | SendVideo(video: Path)
    | SendZip(source: Path, archive: Path, contents: ArchiveContents)
    | RemoveFile(file: Path, confirmation: string)
    | RemoveDir(directory: Path, confirmation: string)
    | Fetch(fileId: string, directory: Path, create: bool, target: Path, confirmation: string)

  /** is_user_allowed. */
  predicate IsUserAllowed(allowed: set<UserId>, user: UserId) {
    user in allowed
  }

  /** send_message_or_file: text over the limit is written to a document. */
  function SendMessageOrFile(text: string): (d: Delivery)
    ensures d.AsDocument? <==> |text| > MessageLimit
    ensures d.AsDocument? ==> d.fileName == OutputFileName && d.content == text
    ensures d.AsMessage? ==> d.text == text
  {
    if |text| > MessageLimit then AsDocument(OutputFileName, text) else AsMessage(text)
  }

  /** Whatever the route, the delivered content is the text itself. */
  function Content(d: Delivery): string {
    match d
    case AsMessage(t) => t
    case AsDocument(_, c) => c
  }

  /** The limit itself still fits in one message; one character more does not. */
  lemma MessageLimitBoundary(text: string)
    ensures |text| == MessageLimit ==> SendMessageOrFile(text) == AsMessage(text)
    ensures |text| == MessageLimit + 1 ==> SendMessageOrFile(text) == AsDocument(OutputFileName, text)
    ensures Content(SendMessageOrFile(text)) == text
  {
  }

  /** The archive zip_directory writes for `path`. */
  function ZipName(path: Path): (zip: Path)
    ensures zip != path
    ensures path <= zip && Text.EndsWith(zip, ".zip") && |zip| == |path| + 4
  {
    Text.EndsWithAppend(path, ".zip");
    path + ".zip"
  }

  /** The archive name gives back the path it was made for. */
  lemma ZipNameInjective(a: Path, b: Path)
    requires ZipName(a) == ZipName(b)
    ensures a == b
  {
    assert a == ZipName(a)[..|a|];
    assert b == ZipName(b)[..|b|];
  }

  /** `item_path.lower().endswith(('.mkv', '.mp4'))`. */
  predicate IsVideoName(path: Path) {
    Text.EndsWith(Text.Lower(path), ".mkv") || Text.EndsWith(Text.Lower(path), ".mp4")
  }

  /** The same test, character by character: a dot, then `m`, then `k` and
      `v` or `p` and `4`, letters in either case (the Kelvin sign counts as
      a capital K). */
  predicate HasVideoExtension(path: Path) {
    var n := |path|;
    && n >= 4
    && path[n - 4] == '.'
    && path[n - 3] in {'m', 'M'}
    && (|| (path[n - 2] in {'k', 'K', '\U{212A}'} && path[n - 1] in {'v', 'V'})
        || (path[n - 2] in {'p', 'P'} && path[n - 1] == '4'))
  }

  lemma LowerCharIs(c: char)
    ensures Text.LowerChar(c) == '.' <==> c == '.'
    ensures Text.LowerChar(c) == 'm' <==> c in {'m', 'M'}
    ensures Text.LowerChar(c) == 'k' <==> c in {'k', 'K', '\U{212A}'}
    ensures Text.LowerChar(c) == 'v' <==> c in {'v', 'V'}
    ensures Text.LowerChar(c) == 'p' <==> c in {'p', 'P'}
    ensures Text.LowerChar(c) == '4' <==> c == '4'
  {
  }

  /** The lower-cased suffix test accepts exactly the paths that end in a
      video extension. */
  lemma VideoNameIffExtension(path: Path)
    ensures IsVideoName(path) <==> HasVideoExtension(path)
  {
    var low := Text.Lower(path);
    var n := |path|;
    if n >= 4 {
      LowerCharIs(path[n - 4]);
      LowerCharIs(path[n - 3]);
      LowerCharIs(path[n - 2]);
      LowerCharIs(path[n - 1]);
      assert low[n - 4..] == [low[n - 4], low[n - 3], low[n - 2], low[n - 1]];
    }
  }

  /** The argument of a command: `message.text.split(maxsplit=1)[1]`. */
  function Argument(text: string): Option<string>
  {
    var parts := Text.SplitOnce(text);
    if |parts| == 2 then Some(parts[1]) else None
  }

  /** A command has an argument exactly when its text has two words or
      more; the argument is the text's tail from the second word on, and
      its words are all the words after the command. */
  lemma ArgumentIsRestOfText(text: string)
    ensures Argument(text).Some? <==> |Text.Split(text)| >= 2
    ensures Argument(text).Some? ==>
              var arg := Argument(text).value;
              && arg != "" && !Text.IsSpace(arg[0])
              && Text.EndsWith(text, arg)
              && Text.Split(text) == [Text.Split(text)[0]] + Text.Split(arg)
  {
  }

  /** upload_item once authorised and given a name. */
  function UploadItem(env: Env, name: string): (r: Response)
    ensures var path := env.join(BaseDir, name);
            && (r.SendVideo? <==> env.kind(path) == File && HasVideoExtension(path))
            && (r.SendVideo? ==> r.video == path)
            && (r.SendZip? <==> env.kind(path) == Dir || (env.kind(path) == File && !HasVideoExtension(path)))
            && (r.SendZip? ==> r.source == path && r.archive == ZipName(path))
            && (r.SendZip? ==> (r.contents == FilesUnder(path) <==> env.kind(path) == Dir))
            && (r.SendZip? ==> (r.contents == NoEntries <==> env.kind(path) == File))
            && (env.kind(path) == Missing <==> r == Reply(InvalidItem))
  {
    var path := env.join(BaseDir, name);
    VideoNameIffExtension(path);
    match env.kind(path)
    case File => if IsVideoName(path) then SendVideo(path) else SendZip(path, ZipName(path), NoEntries)
    case Dir => SendZip(path, ZipName(path), FilesUnder(path))
    case Missing => Reply(InvalidItem)
  }

  /** clean_item once authorised and given a name. */
  function CleanItem(env: Env, name: string): (r: Response)
    ensures var path := env.join(BaseDir, name);
            && (r.RemoveFile? <==> env.kind(path) == File)
            && (r.RemoveDir? <==> env.kind(path) == Dir)
            && (r == Reply(InvalidItem) <==> env.kind(path) == Missing)
            && (r.RemoveFile? ==> r.file == path && r.confirmation == "File '" + name + "' deleted successfully.")
            && (r.RemoveDir? ==> r.directory == path && r.confirmation == "Directory '" + name + "' deleted successfully.")
  {
    var path := env.join(BaseDir, name);
    match env.kind(path)
    case File => RemoveFile(path, "File '" + name + "' deleted successfully.")
    case Dir => RemoveDir(path, "Directory '" + name + "' deleted successfully.")
    case Missing => Reply(InvalidItem)
  }

  /** shell_command once authorised and given a command: the output is
      stdout, or stderr when stdout is empty, behind an "Output:" header. */
  function ShellOutput(env: Env, command: string): (r: Response)
    ensures r.Deliver?
    ensures r.delivery.AsDocument? <==> |Content(r.delivery)| > MessageLimit
    ensures r.delivery.AsDocument? ==> r.delivery.fileName == OutputFileName
    ensures var out := env.run(command);
            Content(r.delivery) == "Output:\n" + (if out.stdout != "" then out.stdout else out.stderr)
  {
    var out := env.run(command);
    MessageLimitBoundary("Output:\n" + (if out.stdout != "" then out.stdout else out.stderr));
    Deliver(SendMessageOrFile("Output:\n" + (if out.stdout != "" then out.stdout else out.stderr)))
  }

  /** download_file once authorised: the replied-to document is saved under
      the named directory, which is created when it is not a directory. */
  function DownloadFile(env: Env, text: string, replied: Option<Document>): (r: Response)
    ensures replied.None? ==> r == Reply(NotADocument)
    ensures replied.Some? && Argument(text).None? ==> r == Reply(MissingArgument)
    ensures replied.Some? && Argument(text).Some? ==> r.Fetch?
    ensures r.Fetch? ==>
              && replied.Some? && Argument(text).Some?
              && r.directory == env.join(BaseDir, Argument(text).value)
              && (r.create <==> env.kind(r.directory) != Dir)
              && r.target == env.join(r.directory, replied.value.fileName)
              && r.fileId == replied.value.fileId
              && r.confirmation == "Downloaded to " + r.target
  {
    if replied.None? then Reply(NotADocument)
    else match Argument(text)
      case None => Reply(MissingArgument)
      case Some(name) =>
        var directory := env.join(BaseDir, name);
        var target := env.join(directory, replied.value.fileName);
        Fetch(replied.value.fileId, directory, env.kind(directory) != Dir, target, "Downloaded to " + target)
  }

  /** One command from `user`: the authorisation gate, then the argument,
      then the command's own dispatch. */
  function Handle(env: Env, allowed: set<UserId>, user: UserId, command: Command, text: string,
                  replied: Option<Document>): Response
  {
    if !IsUserAllowed(allowed, user) then Reply(NotAuthorized)
    else if command == Download then DownloadFile(env, text, replied)
    else match Argument(text)
      case None => Reply(MissingArgument)
      case Some(arg) =>
        match command
        case Shell => ShellOutput(env, arg)
        case Upload => UploadItem(env, arg)
        case Clean => CleanItem(env, arg)
  }

  /** The gate: a user outside the allowed collection gets the refusal and
      nothing else, and an allowed user never gets it, whatever the command. */
  lemma AuthorizationGate(env: Env, allowed: set<UserId>, user: UserId, command: Command, text: string,
                          replied: Option<Document>)
    ensures Handle(env, allowed, user, command, text, replied) == Reply(NotAuthorized)
            <==> user !in allowed
  {
    if user in allowed && command != Download && Argument(text).Some? {
      var arg := Argument(text).value;
      var path := env.join(BaseDir, arg);
      match command
      case Shell =>
      case Upload =>
        assert UploadItem(env, arg) != Reply(NotAuthorized);
      case Clean =>
        assert CleanItem(env, arg) != Reply(NotAuthorized);
    }
  }

  /** An allowed `/shell`, `/upload` or `/clean` without an argument only
      reports the IndexError; with one, it acts on the argument. */
  lemma ArgumentRequired(env: Env, allowed: set<UserId>, user: UserId, command: Command, text: string,
                         replied: Option<Document>)
    requires user in allowed && command != Download
    ensures |Text.Split(text)| < 2 ==> Handle(env, allowed, user, command, text, replied) == Reply(MissingArgument)
    ensures |Text.Split(text)| >= 2 ==> Handle(env, allowed, user, command, text, replied) != Reply(MissingArgument)
  {
    var parts := Text.SplitOnce(text);
    if |Text.Split(text)| >= 2 {
      assert Argument(text) == Some(parts[1]);
      match command
      case Shell => assert ShellOutput(env, parts[1]).Deliver?;
      case Upload => assert UploadItem(env, parts[1]) != Reply(MissingArgument);
      case Clean => assert CleanItem(env, parts[1]) != Reply(MissingArgument);
    } else {
      assert Argument(text) == None;
    }
  }

  /** `/upload a b` with a space in the name: the whole rest of the text is
      the item name, not just the next word. */
  lemma UploadNameIsWholeRest(env: Env, allowed: set<UserId>, user: UserId, name: string)
    requires user in allowed
    requires name != "" && !Text.IsSpace(name[0])
    ensures Handle(env, allowed, user, Upload, "/upload " + name, None) == UploadItem(env, name)
  {
    var text := "/upload " + name;
    assert Text.IsWord("/upload");
    assert "/upload" + " " + name == text;
    Text.SplitOnceWordAndRest("/upload", name);
    assert Argument(text) == Some(name);
  }

  /** `/clean` and `/upload` refuse exactly the same names: both answer
      "Invalid file or directory name." when, and only when, the named path
      is neither a file nor a directory. */
  lemma CleanAndUploadRefuseSameNames(env: Env, allowed: set<UserId>, user: UserId, text: string,
                                      replied: Option<Document>)
    ensures Handle(env, allowed, user, Clean, text, replied) == Reply(InvalidItem)
            <==> user in allowed && Argument(text).Some? && env.kind(env.join(BaseDir, Argument(text).value)) == Missing
    ensures Handle(env, allowed, user, Clean, text, replied) == Reply(InvalidItem)
            <==> Handle(env, allowed, user, Upload, text, replied) == Reply(InvalidItem)
  {
    if user in allowed && Argument(text).Some? {
      var name := Argument(text).value;
      assert Handle(env, allowed, user, Clean, text, replied) == CleanItem(env, name);
      assert Handle(env, allowed, user, Upload, text, replied) == UploadItem(env, name);
    }
  }
}

=== FILE: text.dfy ===
/** The few Python string built-ins the bots rely on, modelled on `string`:
    `str.split()` with no separator, `str.split(maxsplit=1)`, `int(s)` on a
    decimal token, `str(n)`, and the `lower()`/`endswith` pair used for file
    extensions. */
module Text {
  import opened Wrappers

  /** Python's `str.isspace`: the separators of `str.split()` without arguments. */
  predicate IsSpace(c: char) {
    var n := c as int;
    n == 0x20 || 0x09 <= n <= 0x0D || 0x1C <= n <= 0x1F || n == 0x85 || n == 0xA0
    || n == 0x1680 || 0x2000 <= n <= 0x200A || n == 0x2028 || n == 0x2029
    || n == 0x202F || n == 0x205F || n == 0x3000
  }

  predicate NoSpace(s: string) {
    forall i :: 0 <= i < |s| ==> !IsSpace(s[i])
  }

  /** A whitespace-separated word as `str.split()` produces it. */
  predicate IsWord(w: string) {
    w != "" && NoSpace(w)
  }

  /** The number of whitespace characters `s` starts with. */
  function LeadingSpace(s: string): (k: nat)
    ensures k <= |s|
    ensures forall i :: 0 <= i < k ==> IsSpace(s[i])
    ensures k == |s| || !IsSpace(s[k])
  {
    if s != "" && IsSpace(s[0]) then 1 + LeadingSpace(s[1..]) else 0
  }

  /** The length of the longest prefix of `s` without whitespace. */
  function WordLength(s: string): (k: nat)
    ensures k <= |s|
    ensures forall i :: 0 <= i < k ==> !IsSpace(s[i])
    ensures k == |s| || IsSpace(s[k])
  {
    if s != "" && !IsSpace(s[0]) then 1 + WordLength(s[1..]) else 0
  }

  /** `s` without its leading whitespace (Python's `s.lstrip()`). */
  function TrimStart(s: string): string
  {
    s[LeadingSpace(s)..]
  }

  /** Python's `s.split()`: the maximal runs of non-whitespace, in order. */
  function Split(s: string): (words: seq<string>)
    ensures forall i :: 0 <= i < |words| ==> IsWord(words[i])
    decreases |s|
  {
    var t := TrimStart(s);
    if t == "" then []
    else
      var k := WordLength(t);
      assert IsWord(t[..k]);
      [t[..k]] + Split(t[k..])
  }

  /** Python's `s.split(maxsplit=1)`: the first word and, when anything but
      whitespace follows it, the rest of `s` from the next non-whitespace
      character to the very end (trailing whitespace included). */
  function SplitOnce(s: string): (parts: seq<string>)
    ensures |parts| <= 2
    ensures |parts| == 0 <==> |Split(s)| == 0
    ensures |parts| == 2 <==> |Split(s)| >= 2
    ensures |parts| >= 1 ==> parts[0] == Split(s)[0]
    ensures |parts| == 2 ==> Split(s) == [parts[0]] + Split(parts[1])
    ensures |parts| == 2 ==> parts[1] != "" && !IsSpace(parts[1][0])
    ensures |parts| == 2 ==> EndsWith(s, parts[1])
  {
    var t := TrimStart(s);
    if t == "" then []
    else
      var k := WordLength(t);
      var rest := TrimStart(t[k..]);
      SplitStep(s);
      SplitOfTrimmed(t[k..]);
      RestIsSuffix(s);
      if rest == "" then [t[..k]] else [t[..k], rest]
  }

  /** What follows the first word, less its leading whitespace, ends `s`. */
  lemma RestIsSuffix(s: string)
    requires TrimStart(s) != ""
    ensures var t := TrimStart(s); EndsWith(s, TrimStart(t[WordLength(t)..]))
  {
    var a := LeadingSpace(s);
    var t := s[a..];
    var k := WordLength(t);
    var c := LeadingSpace(t[k..]);
    var rest := t[k..][c..];
    SuffixOfSuffix(s, a, k, c);
    assert |rest| == |s| - a - k - c;
    assert s[|s| - |rest|..] == rest;
  }

  lemma SuffixOfSuffix<T>(s: seq<T>, a: nat, b: nat, c: nat)
    requires a <= |s| && b <= |s| - a && c <= |s| - a - b
    ensures s[a..][b..][c..] == s[|s| - (|s| - a - b - c)..]
  {
  }

  /** A command word, one space and a rest that starts with a non-space
      character split once into exactly that word and that rest. */
  lemma SplitOnceWordAndRest(w: string, rest: string)
    requires IsWord(w)
    requires rest != "" && !IsSpace(rest[0])
    ensures SplitOnce(w + " " + rest) == [w, rest]
  {
    var s := w + " " + rest;
    assert s == w + (" " + rest);
    assert LeadingSpace(s) == 0;
    assert TrimStart(s) == s;
    WordLengthOfWord(w, " " + rest);
    assert s[..|w|] == w;
    assert s[|w|..] == " " + rest;
    assert TrimStart(" " + rest) == rest by {
      assert LeadingSpace(rest) == 0;
      assert (" " + rest)[1..] == rest;
    }
  }

  /** Leading whitespace never changes the words. */
  lemma SplitOfTrimmed(s: string)
    ensures Split(TrimStart(s)) == Split(s)
    ensures Split(s) == [] <==> TrimStart(s) == ""
  {
    var t := TrimStart(s);
    assert LeadingSpace(t) == 0;
    assert TrimStart(t) == t;
  }

  /** Words joined by single spaces, the inverse of `Split`. */
  function JoinWords(words: seq<string>): string
  {
    if |words| == 0 then ""
    else if |words| == 1 then words[0]
    else words[0] + " " + JoinWords(words[1..])
  }

  /** `Split` recovers any sequence of words from their space-joined text. */
  lemma {:induction false} SplitJoinWords(words: seq<string>)
    requires forall i :: 0 <= i < |words| ==> IsWord(words[i])
    ensures Split(JoinWords(words)) == words
    decreases |words|
  {
    if |words| == 0 {
    } else if |words| == 1 {
      var w := words[0];
      assert IsWord(w);
      WordLengthOfWord(w, "");
      assert w + "" == w;
      assert LeadingSpace(w) == 0;
      assert w[|w|..] == "";
      assert Split(w) == [w[..|w|]] + Split("");
    } else {
      var w := words[0];
      assert IsWord(w);
      var rest := JoinWords(words[1..]);
      var s := w + " " + rest;
      assert LeadingSpace(s) == 0;
      WordLengthOfWord(w, " " + rest);
      assert s == w + (" " + rest);
      assert s[..|w|] == w;
      assert s[|w|..] == " " + rest;
      JoinWordsStartsWithWord(words[1..]);
      assert TrimStart(" " + rest) == rest by {
        assert LeadingSpace(rest) == 0;
        assert (" " + rest)[1..] == rest;
      }
      SplitOfTrimmed(" " + rest);
      SplitJoinWords(words[1..]);
    }
  }

  /** The word at the head of `w + rest` is `w`, when `rest` does not continue it. */
  lemma {:induction false} WordLengthOfWord(w: string, rest: string)
    requires NoSpace(w)
    requires rest == "" || IsSpace(rest[0])
    ensures WordLength(w + rest) == |w|
    decreases |w|
  {
    if w == "" {
      assert w + rest == rest;
    } else {
      assert (w + rest)[1..] == w[1..] + rest;
      WordLengthOfWord(w[1..], rest);
    }
  }

  lemma JoinWordsStartsWithWord(words: seq<string>)
    requires |words| > 0
    requires forall i :: 0 <= i < |words| ==> IsWord(words[i])
    ensures JoinWords(words) != "" && !IsSpace(JoinWords(words)[0])
  {
    assert IsWord(words[0]);
    if |words| > 1 {
      assert JoinWords(words)[0] == words[0][0];
    }
  }

  predicate AllSpace(g: string) {
    forall i :: 0 <= i < |g| ==> IsSpace(g[i])
  }

  /** Whitespace runs that can surround words: the first and last may be
      empty, every run between two words is not. */
  predicate IsSpacing(gaps: seq<string>) {
    && |gaps| >= 1
    && (forall i :: 0 <= i < |gaps| ==> AllSpace(gaps[i]))
    && (forall i :: 0 < i < |gaps| - 1 ==> gaps[i] != "")
  }

  /** `gaps[0] + words[0] + gaps[1] + ... + words[n-1] + gaps[n]`. */
  function Interleave(words: seq<string>, gaps: seq<string>): string
    requires |gaps| == |words| + 1
  {
    if |words| == 0 then gaps[0] else gaps[0] + words[0] + Interleave(words[1..], gaps[1..])
  }

  /** The whitespace runs around the words of `s`. */
  function Gaps(s: string): seq<string>
    decreases |s|
  {
    var t := TrimStart(s);
    var lead := s[..LeadingSpace(s)];
    if t == "" then [lead] else [lead] + Gaps(t[WordLength(t)..])
  }

  lemma ConsParts<T>(x: T, xs: seq<T>)
    ensures |[x] + xs| == |xs| + 1 && ([x] + xs)[0] == x && ([x] + xs)[1..] == xs
  {
  }

  lemma SpacingCons(g0: string, gaps: seq<string>)
    requires AllSpace(g0) && IsSpacing(gaps) && (|gaps| > 1 ==> gaps[0] != "")
    ensures IsSpacing([g0] + gaps)
  {
    var all := [g0] + gaps;
    forall i | 0 <= i < |all| ensures AllSpace(all[i]) {
      if i > 0 {
        assert all[i] == gaps[i - 1];
      }
    }
    forall i | 0 < i < |all| - 1 ensures all[i] != "" {
      assert all[i] == gaps[i - 1];
    }
  }

  lemma SpacingTail(gaps: seq<string>)
    requires IsSpacing(gaps) && |gaps| >= 2
    ensures AllSpace(gaps[0]) && IsSpacing(gaps[1..])
    ensures |gaps| > 2 ==> gaps[1] != "" && AllSpace(gaps[1])
  {
    var tail := gaps[1..];
    forall i | 0 <= i < |tail| ensures AllSpace(tail[i]) {
      assert tail[i] == gaps[i + 1];
    }
    forall i | 0 < i < |tail| - 1 ensures tail[i] != "" {
      assert tail[i] == gaps[i + 1];
    }
  }

  /** One word off the front of `s`: its leading run, the word, and the rest. */
  lemma SplitStep(s: string)
    requires TrimStart(s) != ""
    ensures var t := TrimStart(s); var k := WordLength(t);
            Split(s) == [t[..k]] + Split(t[k..])
  {
  }

  lemma GapsStep(s: string)
    requires TrimStart(s) != ""
    ensures var t := TrimStart(s); var k := WordLength(t);
            Gaps(s) == [s[..LeadingSpace(s)]] + Gaps(t[k..])
  {
  }

  lemma PiecesStep(s: string)
    ensures var t := TrimStart(s); var k := WordLength(t);
            s == s[..LeadingSpace(s)] + t[..k] + t[k..]
  {
    ThreePieces(s, LeadingSpace(s), WordLength(TrimStart(s)));
  }

  lemma ThreePieces<T>(s: seq<T>, a: nat, b: nat)
    requires a <= |s| && b <= |s| - a
    ensures s == s[..a] + s[a..][..b] + s[a..][b..]
  {
    assert s == s[..a] + s[a..];
    assert s[a..] == s[a..][..b] + s[a..][b..];
  }

  lemma InterleaveCons(w: string, words: seq<string>, g: string, gaps: seq<string>)
    requires |gaps| == |words| + 1
    ensures Interleave([w] + words, [g] + gaps) == g + w + Interleave(words, gaps)
  {
    ConsParts(w, words);
    ConsParts(g, gaps);
  }

  lemma {:induction false} GapsCount(s: string)
    ensures |Gaps(s)| == |Split(s)| + 1
    decreases |s|
  {
    var t := TrimStart(s);
    if t != "" {
      SplitStep(s);
      GapsStep(s);
      GapsCount(t[WordLength(t)..]);
    }
  }

  lemma {:induction false} GapsSpacing(s: string)
    ensures IsSpacing(Gaps(s))
    decreases |s|
  {
    var t := TrimStart(s);
    if t != "" {
      var rest := t[WordLength(t)..];
      GapsStep(s);
      GapsSpacing(rest);
      if |Gaps(rest)| > 1 {
        assert LeadingSpace(rest) > 0;
      }
      SpacingCons(s[..LeadingSpace(s)], Gaps(rest));
    }
  }

  /** Every text is its words interleaved with whitespace runs: `Split`
      loses only the whitespace. */
  lemma {:induction false} InterleaveOfSplit(s: string)
    ensures |Gaps(s)| == |Split(s)| + 1
    ensures IsSpacing(Gaps(s))
    ensures Interleave(Split(s), Gaps(s)) == s
    decreases |s|
  {
    GapsCount(s);
    GapsSpacing(s);
    var t := TrimStart(s);
    if t == "" {
      assert LeadingSpace(s) == |s|;
      assert Gaps(s) == [s[..|s|]];
    } else {
      var rest := t[WordLength(t)..];
      SplitStep(s);
      GapsStep(s);
      PiecesStep(s);
      InterleaveOfSplit(rest);
      InterleaveCons(t[..WordLength(t)], Split(rest), s[..LeadingSpace(s)], Gaps(rest));
    }
  }

  lemma LeadingSpaceOfGap(g: string, x: string)
    requires AllSpace(g)
    requires x == "" || !IsSpace(x[0])
    ensures LeadingSpace(g + x) == |g|
    decreases |g|
  {
    if g == "" {
      assert g + x == x;
    } else {
      assert (g + x)[1..] == g[1..] + x;
      LeadingSpaceOfGap(g[1..], x);
    }
  }

  /** A whitespace run, a word, and text that does not continue the word:
      the word is the first of the words. */
  lemma SplitOfWordThenRest(g: string, w: string, rest: string)
    requires AllSpace(g) && IsWord(w)
    requires rest == "" || IsSpace(rest[0])
    ensures Split(g + w + rest) == [w] + Split(rest)
  {
    var s := g + w + rest;
    assert s == g + (w + rest);
    assert w[0] == (w + rest)[0];
    LeadingSpaceOfGap(g, w + rest);
    assert s[|g|..] == w + rest;
    WordLengthOfWord(w, rest);
    assert (w + rest)[..|w|] == w;
    assert (w + rest)[|w|..] == rest;
    SplitStep(s);
  }

  /** Conversely, words interleaved with whitespace runs split back into
      exactly those words, whatever the runs are. */
  lemma {:induction false} SplitOfInterleave(words: seq<string>, gaps: seq<string>)
    requires forall i :: 0 <= i < |words| ==> IsWord(words[i])
    requires |gaps| == |words| + 1 && IsSpacing(gaps)
    ensures Split(Interleave(words, gaps)) == words
    decreases |words|
  {
    if |words| == 0 {
      LeadingSpaceOfGap(gaps[0], "");
      assert gaps[0] + "" == gaps[0];
    } else {
      var w := words[0];
      var tail := words[1..];
      assert IsWord(w);
      SpacingTail(gaps);
      assert forall i :: 0 <= i < |tail| ==> IsWord(tail[i]) by {
        forall i | 0 <= i < |tail| ensures IsWord(tail[i]) {
          assert tail[i] == words[i + 1];
        }
      }
      RestStartsWithSpace(tail, gaps[1..]);
      SplitOfWordThenRest(gaps[0], w, Interleave(tail, gaps[1..]));
      SplitOfInterleave(tail, gaps[1..]);
      ConsParts(w, tail);
    }
  }

  lemma RestStartsWithSpace(words: seq<string>, gaps: seq<string>)
    requires |gaps| == |words| + 1 && IsSpacing(gaps)
    requires |words| > 0 ==> gaps[0] != ""
    ensures var r := Interleave(words, gaps); r == "" || IsSpace(r[0])
  {
    if gaps[0] != "" {
      assert Interleave(words, gaps)[0] == gaps[0][0];
    }
  }

  // ---------------------------------------------------------------------
  // Decimal integers: Python's `str(n)` and `int(s)`.

  predicate IsDigit(c: char) {
    '0' <= c <= '9'
  }

  predicate AllDigits(s: string) {
    forall i :: 0 <= i < |s| ==> IsDigit(s[i])
  }

  function DigitChar(d: nat): (c: char)
    requires d < 10
    ensures IsDigit(c)
  {
    (48 + d) as char
  }

  function DigitValue(c: char): (d: nat)
    requires IsDigit(c)
    ensures d < 10
  {
    c as int - 48
  }

  /** Python's `str(n)` for a natural number: its decimal digits, no leading zero. */
  function ShowNat(n: nat): (s: string)
    ensures s != "" && AllDigits(s)
  {
    if n < 10 then [DigitChar(n)] else ShowNat(n / 10) + [DigitChar(n % 10)]
  }

  /** Python's `str(i)` for an integer. */
  function ShowInt(i: int): string
  {
    if i < 0 then "-" + ShowNat(-i) else ShowNat(i)
  }

  /** The value of a string of decimal digits, most significant first. */
  function DigitsValue(s: string): nat
    requires AllDigits(s)
  {
    if s == "" then 0 else DigitsValue(s[..|s| - 1]) * 10 + DigitValue(s[|s| - 1])
  }

  /** What Python's `int` accepts after an optional sign in base 10: digits,
      where a single underscore may separate two digits. */
  predicate DigitGroups(s: string) {
    && s != ""
    && IsDigit(s[0])
    && forall i {:trigger s[i]} :: 0 <= i < |s| ==>
         IsDigit(s[i]) || (s[i] == '_' && i + 1 < |s| && IsDigit(s[i + 1]))
  }

  lemma DigitGroupsShape(s: string)
    requires DigitGroups(s)
    ensures IsDigit(s[|s| - 1])
    ensures forall i :: 0 <= i < |s| ==> IsDigit(s[i]) || s[i] == '_'
  {
  }

  lemma DigitGroupsOfDigits(s: string)
    requires s != "" && AllDigits(s)
    ensures DigitGroups(s)
  {
  }

  /** `s` with its underscores removed. */
  function DropUnderscores(s: string): (r: string)
    ensures |r| <= |s|
    ensures (forall i :: 0 <= i < |s| ==> IsDigit(s[i]) || s[i] == '_') ==> AllDigits(r)
  {
    if s == "" then ""
    else (if s[0] == '_' then "" else [s[0]]) + DropUnderscores(s[1..])
  }

  /** Python's `int(s)` on a token without surrounding whitespace: an
      optional sign and digit groups, or None where `int` raises ValueError. */
  function ParseInt(s: string): (r: Option<int>)
    ensures r.Some? ==> s != "" && IsDigit(s[|s| - 1])
    ensures r.Some? ==> forall i :: 0 <= i < |s| ==>
              IsDigit(s[i]) || s[i] == '_' || (i == 0 && (s[i] == '+' || s[i] == '-'))
    ensures r.Some? && r.value < 0 ==> s[0] == '-'
    ensures var body := if s != "" && (s[0] == '+' || s[0] == '-') then s[1..] else s;
            r.Some? <==> DigitGroups(body)
  {
    var signed := s != "" && (s[0] == '+' || s[0] == '-');
    var body := if signed then s[1..] else s;
    if !DigitGroups(body) then None
    else
      DigitGroupsShape(body);
      assert s[|s| - 1] == body[|body| - 1];
      var v: int := DigitsValue(DropUnderscores(body));
      Some(if signed && s[0] == '-' then -v else v)
  }

  /** Conversely, `int` accepts every optional sign followed by digit groups,
      leading zeros and underscores included: the value is that of the digits
      with the underscores dropped, negated after a `-`. */
  lemma ParseIntAccepts(sign: string, digits: string)
    requires sign == "" || sign == "+" || sign == "-"
    requires DigitGroups(digits)
    ensures AllDigits(DropUnderscores(digits))
    ensures ParseInt(sign + digits) ==
              Some(if sign == "-" then 0 - DigitsValue(DropUnderscores(digits)) as int
                   else DigitsValue(DropUnderscores(digits)))
  {
    DigitGroupsShape(digits);
    var s := sign + digits;
    if sign == "" {
      assert s == digits;
      assert !(s[0] == '+' || s[0] == '-');
    } else {
      assert s[1..] == digits;
    }
  }

  lemma {:induction false} DropUnderscoresOfDigits(s: string)
    requires AllDigits(s)
    ensures DropUnderscores(s) == s
  {
    if s != "" {
      DropUnderscoresOfDigits(s[1..]);
    }
  }

  lemma {:induction false} DigitsValueOfShowNat(n: nat)
    ensures DigitsValue(ShowNat(n)) == n
  {
    if n >= 10 {
      var s := ShowNat(n);
      assert s[..|s| - 1] == ShowNat(n / 10);
      DigitsValueOfShowNat(n / 10);
    }
  }

  /** The digits of a natural number parse back to it, with or without a sign. */
  lemma ParseShowNat(n: nat)
    ensures ParseInt(ShowNat(n)) == Some(n)
    ensures ParseInt("-" + ShowNat(n)) == Some(0 - n as int)
  {
    var digits := ShowNat(n);
    DropUnderscoresOfDigits(digits);
    DigitsValueOfShowNat(n);
    DigitGroupsOfDigits(digits);
    assert !(digits[0] == '+' || digits[0] == '-');
    assert ("-" + digits)[1..] == digits;
  }

  /** `int(str(i)) == i`: the rendering of an integer parses back to it. */
  lemma ParseShowInt(i: int)
    ensures ParseInt(ShowInt(i)) == Some(i)
  {
    if i < 0 {
      ParseShowNat(-i);
    } else {
      ParseShowNat(i);
    }
  }

  /** Distinct integers render to distinct strings. */
  lemma ShowIntInjective(a: int, b: int)
    requires ShowInt(a) == ShowInt(b)
    ensures a == b
  {
    ParseShowInt(a);
    ParseShowInt(b);
  }

  // ---------------------------------------------------------------------
  // Case folding and suffixes.

  /** Python's `str.lower()` on one character, exact wherever the result is
      ASCII: ASCII capitals and the Kelvin sign U+212A (which lowers to `k`)
      are the only characters whose lower case is an ASCII letter or digit. */
  function LowerChar(c: char): char
  {
    if 'A' <= c <= 'Z' then (c as int + 32) as char
    else if c == '\U{212A}' then 'k'
    else c
  }

  function Lower(s: string): (r: string)
    ensures |r| == |s|
    ensures forall i :: 0 <= i < |s| ==> r[i] == LowerChar(s[i])
  {
    seq(|s|, i requires 0 <= i < |s| => LowerChar(s[i]))
  }

  /** Python's `s.endswith(suffix)`. */
  predicate EndsWith<T(==)>(s: seq<T>, suffix: seq<T>) {
    |suffix| <= |s| && s[|s| - |suffix|..] == suffix
  }

  lemma EndsWithAppend(s: string, suffix: string)
    ensures EndsWith(s + suffix, suffix)
  {
    assert (s + suffix)[|s|..] == suffix;
  }
}

=== FILE: utils.dfy ===
/** utils.py: the option parser for the metadata-editing command and the
    ffmpeg command line it produces.

    The command text is a sequence of tokens; a flag (`-m`, `-i`, `-n`) takes
    the token right after its FIRST occurrence, and a flag that is the last
    token has no value (Python raises IndexError there; here it is an error
    result). The command line is a single string, assembled without quoting
    or escaping. */
module Utils {
  import opened Wrappers

  const DefaultTitle: string := "Default Title"
  const TitleFlag: string := "-m"
  const OrderFlag: string := "-i"
  const NameFlag: string := "-n"

  predicate IsFlag(t: string) {
    t == TitleFlag || t == OrderFlag || t == NameFlag
  }

  /** The options dictionary: `metadata_title`, `input_order`, `new_filename`. */
  datatype Options = Options(metadataTitle: string, inputOrder: Option<string>, newFilename: Option<string>)

  const Defaults: Options := Options(DefaultTitle, None, None)

  /** The IndexError of `command_text[command_text.index(flag) + 1]`. */
  datatype ParseError = MissingValue(flag: string)

  /** `i` is the position of the first occurrence of `t` in `tokens`. */
  ghost predicate FirstAt(tokens: seq<string>, t: string, i: int) {
    0 <= i < |tokens| && tokens[i] == t && forall k :: 0 <= k < i ==> tokens[k] != t
  }

  lemma FirstAtUnique(tokens: seq<string>, t: string, i: int, j: int)
    requires FirstAt(tokens, t, i) && FirstAt(tokens, t, j)
    ensures i == j
  {
  }

  /** Python's `tokens.index(t)`, or None where it would raise ValueError. */
  function IndexOf(tokens: seq<string>, t: string): (r: Option<nat>)
    ensures r.None? <==> t !in tokens
    ensures r.Some? ==> FirstAt(tokens, t, r.value)
  {
    if |tokens| == 0 then None
    else if tokens[0] == t then Some(0)
    else match IndexOf(tokens[1..], t)
      case None => None
      case Some(i) =>
        Some(i + 1)
  }

  /** The value a flag contributes: nothing when it is absent, the token
      after its first occurrence otherwise, an error when there is none. */
  function FlagValue(tokens: seq<string>, flag: string): (r: Result<Option<string>, ParseError>)
    ensures flag !in tokens ==> r == Ok(None)
    ensures forall i {:trigger FirstAt(tokens, flag, i)} :: FirstAt(tokens, flag, i) ==>
              if i + 1 < |tokens| then r == Ok(Some(tokens[i + 1])) else r == Err(MissingValue(flag))
  {
    match IndexOf(tokens, flag)
    case None => Ok(None)
    case Some(i) =>
      assert forall j {:trigger FirstAt(tokens, flag, j)} :: FirstAt(tokens, flag, j) ==> j == i by {
        forall j | FirstAt(tokens, flag, j) {
          FirstAtUnique(tokens, flag, i, j);
        }
      }
      if i + 1 < |tokens| then Ok(Some(tokens[i + 1])) else Err(MissingValue(flag))
  }

  /** The only way parsing fails: the last token is a flag seen nowhere before it. */
  ghost predicate DanglingFlag(tokens: seq<string>) {
    |tokens| > 0 && IsFlag(tokens[|tokens| - 1]) && tokens[|tokens| - 1] !in tokens[..|tokens| - 1]
  }

  lemma FlagValueFails(tokens: seq<string>, flag: string)
    ensures FlagValue(tokens, flag).Err? <==>
              |tokens| > 0 && tokens[|tokens| - 1] == flag && flag !in tokens[..|tokens| - 1]
    ensures FlagValue(tokens, flag).Err? ==> FlagValue(tokens, flag).error == MissingValue(flag)
  {
    if |tokens| > 0 && tokens[|tokens| - 1] == flag && flag !in tokens[..|tokens| - 1] {
      assert FirstAt(tokens, flag, |tokens| - 1);
    }
    match IndexOf(tokens, flag)
    case None =>
    case Some(i) =>
      assert FirstAt(tokens, flag, i);
  }

  /** parse_command: `-m` sets the title, `-i` the input order, `-n` the new
      file name, each from the token after its first occurrence. */
  function ParseCommand(tokens: seq<string>): (r: Result<Options, ParseError>)
    ensures r.Err? <==> DanglingFlag(tokens)
    ensures r.Err? ==> r.error == MissingValue(tokens[|tokens| - 1])
    ensures r.Ok? && TitleFlag !in tokens ==> r.value.metadataTitle == DefaultTitle
    ensures r.Ok? && OrderFlag !in tokens ==> r.value.inputOrder == None
    ensures r.Ok? && NameFlag !in tokens ==> r.value.newFilename == None
    ensures r.Ok? ==> forall i {:trigger FirstAt(tokens, TitleFlag, i)} :: FirstAt(tokens, TitleFlag, i) ==>
              i + 1 < |tokens| && r.value.metadataTitle == tokens[i + 1]
    ensures r.Ok? ==> forall i {:trigger FirstAt(tokens, OrderFlag, i)} :: FirstAt(tokens, OrderFlag, i) ==>
              i + 1 < |tokens| && r.value.inputOrder == Some(tokens[i + 1])
    ensures r.Ok? ==> forall i {:trigger FirstAt(tokens, NameFlag, i)} :: FirstAt(tokens, NameFlag, i) ==>
              i + 1 < |tokens| && r.value.newFilename == Some(tokens[i + 1])
  {
    FlagValueFails(tokens, TitleFlag);
    FlagValueFails(tokens, OrderFlag);
    FlagValueFails(tokens, NameFlag);
    var title :- FlagValue(tokens, TitleFlag);
    var order :- FlagValue(tokens, OrderFlag);
    var name :- FlagValue(tokens, NameFlag);
    Ok(Options(title.GetOr(DefaultTitle), order, name))
  }

  /** With none of the three flags present the defaults come back unchanged. */
  lemma ParseWithoutFlags(tokens: seq<string>)
    requires TitleFlag !in tokens && OrderFlag !in tokens && NameFlag !in tokens
    ensures ParseCommand(tokens) == Ok(Defaults)
  {
  }

  /** `opts` with the one key `flag` controls set to `v`. */
  function WithFlag(opts: Options, flag: string, v: string): Options
    requires IsFlag(flag)
  {
    if flag == TitleFlag then opts.(metadataTitle := v)
    else if flag == OrderFlag then opts.(inputOrder := Some(v))
    else opts.(newFilename := Some(v))
  }

  /** Each flag affects only its own key: appending `flag v` to a command sets
      that one key when the flag is new, and changes nothing when the flag
      already occurred (only its first occurrence counts). */
  lemma {:induction false} AppendFlagOnlySetsItsKey(tokens: seq<string>, flag: string, v: string)
    requires IsFlag(flag) && !IsFlag(v)
    requires ParseCommand(tokens).Ok?
    ensures ParseCommand(tokens + [flag, v]).Ok?
    ensures ParseCommand(tokens + [flag, v]).value ==
              if flag in tokens then ParseCommand(tokens).value
              else WithFlag(ParseCommand(tokens).value, flag, v)
  {
    var longer := tokens + [flag, v];
    assert longer[..|tokens|] == tokens;
    forall f | IsFlag(f)
      ensures FlagValue(longer, f) ==
                if f == flag && flag !in tokens then Ok(Some(v)) else FlagValue(tokens, f)
    {
      FlagValueFails(tokens, f);
      AppendFlagValue(tokens, f, flag, v);
    }
  }

  lemma AppendFlagValue(tokens: seq<string>, f: string, flag: string, v: string)
    requires IsFlag(f) && IsFlag(flag) && !IsFlag(v)
    requires FlagValue(tokens, f).Ok?
    ensures FlagValue(tokens + [flag, v], f) ==
              if f == flag && flag !in tokens then Ok(Some(v)) else FlagValue(tokens, f)
  {
    var longer := tokens + [flag, v];
    assert longer[..|tokens|] == tokens;
    match IndexOf(tokens, f)
    case Some(i) =>
      assert FirstAt(tokens, f, i);
      assert longer[..i] == tokens[..i];
      assert FirstAt(longer, f, i);
      assert longer[i + 1] == tokens[i + 1];
    case None =>
      if f == flag {
        assert FirstAt(longer, f, |tokens|);
      } else {
        assert f !in longer by {
          assert longer == tokens + [flag] + [v];
        }
      }
  }

  /** Python truthiness of `options["input_order"]`: present and non-empty. */
  predicate Truthy(o: Option<string>) {
    o.Some? && o.value != ""
  }

  /** The fixed head of every command line: the input file. */
  function InputClause(videoPath: string): string {
    "ffmpeg -i " + videoPath
  }

  /** The fixed tail of every command line: the title, verbatim, then the output. */
  function TitleClause(title: string, outputPath: string): string {
    " -metadata title='" + title + "' " + outputPath
  }

  /** construct_ffmpeg_command. */
  function ConstructFfmpegCommand(videoPath: string, outputPath: string, options: Options): (cmd: string)
    ensures InputClause(videoPath) <= cmd
    ensures EndsWithTail(cmd, TitleClause(options.metadataTitle, outputPath))
    ensures |InputClause(videoPath)| + |TitleClause(options.metadataTitle, outputPath)| <= |cmd|
    ensures Truthy(options.inputOrder) ==>
              Middle(cmd, videoPath, outputPath, options.metadataTitle) == " -map " + options.inputOrder.value
    ensures !Truthy(options.inputOrder) ==>
              cmd == InputClause(videoPath) + TitleClause(options.metadataTitle, outputPath)
  {
    var mapClause := if Truthy(options.inputOrder) then " -map " + options.inputOrder.value else "";
    var cmd := InputClause(videoPath) + mapClause + TitleClause(options.metadataTitle, outputPath);
    assert cmd[|InputClause(videoPath)|..|cmd| - |TitleClause(options.metadataTitle, outputPath)|] == mapClause;
    cmd
  }

  predicate EndsWithTail(s: string, tail: string) {
    |tail| <= |s| && s[|s| - |tail|..] == tail
  }

  /** What lies between the input clause and the title clause of a command. */
  function Middle(cmd: string, videoPath: string, outputPath: string, title: string): string
    requires |InputClause(videoPath)| + |TitleClause(title, outputPath)| <= |cmd|
  {
    cmd[|InputClause(videoPath)|..|cmd| - |TitleClause(title, outputPath)|]
  }

  /** The new file name never reaches the command line. */
  lemma CommandIgnoresNewFilename(videoPath: string, outputPath: string, options: Options, name: Option<string>)
    ensures ConstructFfmpegCommand(videoPath, outputPath, options.(newFilename := name))
         == ConstructFfmpegCommand(videoPath, outputPath, options)
  {
  }

  /** A `-map` clause appears exactly when the input order is truthy, so an
      empty input order is the same as none. */
  lemma MapClauseIffTruthy(videoPath: string, outputPath: string, options: Options)
    ensures Truthy(options.inputOrder) <==>
              |ConstructFfmpegCommand(videoPath, outputPath, options)|
                > |InputClause(videoPath)| + |TitleClause(options.metadataTitle, outputPath)|
  {
  }

  /** End to end: a command `... -i ORDER ...` whose ORDER is not empty puts
      `-map ORDER` into the ffmpeg command line. */
  lemma ParsedOrderReachesCommand(tokens: seq<string>, i: nat, videoPath: string, outputPath: string)
    requires FirstAt(tokens, OrderFlag, i) && i + 1 < |tokens| && tokens[i + 1] != ""
    requires !DanglingFlag(tokens)
    ensures ParseCommand(tokens).Ok?
    ensures var cmd := ConstructFfmpegCommand(videoPath, outputPath, ParseCommand(tokens).value);
            Middle(cmd, videoPath, outputPath, ParseCommand(tokens).value.metadataTitle) == " -map " + tokens[i + 1]
  {
  }
}

=== FILE: wrappers.dfy ===
/** Two small wrappers used by every other module.

    `Option` stands for a Python value that may be `None`. `Result` is a
    value or an error; it declares `IsFailure`, `PropagateFailure` and
    `Extract`, so a chain of steps that may raise can be written with `:-`. */
module Wrappers {

  datatype Option<T> = None | Some(value: T) {

    /** Python's `x if x is not None else default`. */
    function GetOr(default: T): T {
      if Some? then value else default
    }
  }

  datatype Result<T, E> = Ok(value: T) | Err(error: E) {

    predicate IsFailure() {
      Err?
    }

    function PropagateFailure<U>(): Result<U, E>
      requires Err?
    {
      Err(error)
    }

    function Extract(): T
      requires Ok?
    {
      value
    }
  }
}
